=== FILE: README.md ===
# Canpay client: the authenticated request pipeline

A Dafny model of the `Canpay` JavaScript client of the Canpayment service
(`index.js`). The client keeps two strings, an access token and a refresh
token. Every modelled operation goes through one base request method. That
method refuses a call with "Log in first." when the call needs credentials
and the access token is empty. Otherwise it hands one request to the HTTP
transport, with the fixed base URL, the access token as `Authorization` and
a JSON content type. `logIn`, `register` and `renewToken` may run without
credentials, and they replace both tokens only once their request has
succeeded.

The transport is an input: each operation is a pure function from the
credentials held before the call, its arguments and the transport's
`Outcome` (`Failure(reason)` or `Success(response)`) to an `Exchange`. An
`Exchange` holds the credentials afterwards, the request handed to the
transport (`None` when none was built) and the returned value or the error.

Files, one module each:

- `values.dfy` (`Values`): JavaScript values, truthiness, `===`, and the first-match lookup by key used for headers.
- `text.dfy` (`Text`): `toLowerCase` and a first-occurrence search.
- `sessions.dfy` (`Sessions`): the credentials and the fresh client's state.
- `pipeline.dfy` (`Pipeline`): the guard, the request handed to the transport, and how outcomes come back.
- `api.dfy` (`Api`): fifteen of the seventeen public operations and the descriptor (method, path, body, `ignoreCredential`) each builds. The other two, the deposit-history calls, are listed under "## Left out".
- `client.dfy` (`Client`): the credential lifecycle and the domain operations as functions over the session.
- `routes.dfy` (`Routes`): a decoder that reads a call back from its descriptor. It is the independent partner of the builders: the round trip shows the paths and bodies encode every argument.
- `traces.dfy` (`Traces`): sequences of calls, and what the credentials are after any run.
- `scenarios.dfy` (`Scenarios`): concrete calls, each against a fixed transport outcome.

Three observations come out of the proofs. First, the check `!currency==="xrp"` in `transfer` compares a boolean with a string, so it never throws; the model keeps the check as written and proves that. Second, some argument values make two operations share a route. `createWallet("transfer_xrp")` posts to the route of an XRP transfer, and `createWallet("charge_jpy")` posts to the yen-deposit route; only the empty body tells these requests apart. `getInvoice` with an id of the form `history/<currency>?paidOnly=<0 or 1>[&lastId=<id>]` builds exactly the `getPaymentHistory` request for those arguments. Third, a history currency containing `?` never reads back as itself. For example, `getPaymentHistory("a?paidOnly=0&lastId=x", false, "")` and `getPaymentHistory("a", false, "x?paidOnly=0")` build the same path. The round trip holds for exactly the calls that avoid the last two cases: an invoice id that reads as a history, and a history currency containing `?`.

## Model

| member | source | states |
|---|---|---|
| Pipeline.Request | index.js:25-40 | The guard refuses with "Log in first." and builds no request exactly when credentials are needed and the access token is empty. Otherwise one request goes to the base URL with the descriptor's method, path and body, exactly two headers: `Authorization` equal to the current access token (even empty) and `Content-Type: application/json`. A success returns the response unchanged and a failure surfaces verbatim. The credentials are untouched. |
| Client.LogIn | index.js:47-52 | Always sends `POST /users/login` with `{email, password}`, whatever the credentials. On success the tokens become the reply's `jwt` and `refreshToken` and the payload is returned. On failure the credentials are unchanged and the transport error surfaces. |
| Client.Register | index.js:61-66 | The same lifecycle as logging in, with `POST /users/register` and body `{email, password, screenName}`. |
| Client.RenewToken | index.js:71-76 | Always sends `POST /refresh_token` with `{token: <refresh token held before the call>}`, even without an access token. On success both tokens are replaced and `true` is returned. On failure both are left as they were. |
| Client.Perform | index.js:83-257 | A domain operation never changes the credentials. It is refused with "Log in first." exactly when the access token is empty. Otherwise it sends its own descriptor and returns the response data unchanged. A failure surfaces verbatim as the transport's error. |
| Client.FreshClientBlocked | index.js:10-28 | A new client holds two empty tokens, so every domain operation is refused with "Log in first." and builds no request, whatever the transport would have done. |
| Client.GuardSparesExactlyCredentialCalls | index.js:25-28 | A call passes the guard exactly when it is `logIn`, `register` or `renewToken`, or when the access token is non-empty. |
| Api.Describe | index.js:47-257 | Only the three credential operations set `ignoreCredential`. Every path is relative to the base URL and every body is an object. |
| Client.Adopt | index.js:48-51 | The token assignments after the awaited request: on success both tokens become the reply's `jwt` and `refreshToken` and the call's value is taken from the reply. On failure the credentials and the error stay as the request left them. The same request is reported either way. |
| Api.PaidOnlyFlag | index.js:127 | The bitwise or of `paidOnly` with 0 renders as a single character, `1` exactly when `paidOnly` is true and `0` otherwise. |
| Api.HistoryLastIdIff | index.js:126-130 | The history path starts with `/payments/history/<cur>?paidOnly=<flag>`. It ends there exactly when the last id is empty; otherwise `&lastId=<lastId>` follows. |
| Api.DescribeReadsOnlyRefreshToken | index.js:72 | Descriptors do not depend on the credentials, except that `renewToken`'s body carries the refresh token. |
| Api.TagCheckNeverFires | index.js:176-178 | `!currency==="xrp"` is false for every currency, so `transfer` never throws "Tag is required when remitting XRP". |
| Text.LowerCase | index.js:175 | Lower-casing keeps the length, maps each character to its lower-case form, and leaves no upper-case letter. |
| Text.LowerCaseIdempotent | index.js:175 | Lower-casing an already lower-cased currency changes nothing. |
| Routes.DecodeHistoryPath | index.js:126-131 | Reading a history path back yields the currency, the `paidOnly` flag (`0`/`1`) and the last id it was built from, an empty last id included. This needs a currency without `?`. |
| Routes.DecodeDescribe | index.js:83-257 | Every call is read back from its method, path and body as its representative. The exceptions are a `getInvoice` id whose path reads as a payment history and a history currency containing `?`. The representative lower-cases a transfer currency and treats an omitted wallet currency as empty. The decoder is strict: it accepts only a body with exactly the keys, in order, that the route's builder writes, and only the empty object on the body-less routes. |
| Routes.DecodeDescribeIff | index.js:83-257 | The round trip holds for a call if and only if it is unambiguous. Each excluded `getInvoice` or `getPaymentHistory` call builds a request that reads back as a different call. |
| Routes.DecodeOnlyBuilt | index.js:83-257 | Conversely, any method, path and body the decoder accepts are exactly those the decoded call sends; for `renewToken` the session holds the refresh token the body carries. With `DecodeDescribe` and `SameDescriptorIff`, the request an unambiguous call sends determines that call's representative, not the call itself. For example, a transfer of `XRP` and one of `xrp` send the same request. No request outside what the builders write is accepted. |
| Routes.DescribeNormalize | index.js:84 | An omitted and an empty wallet currency give the same request, and so do a transfer currency and its lower-cased form. |
| Routes.SameDescriptorIff | index.js:83-257 | Two unambiguous calls build the same descriptor if and only if they have the same representative. |
| Routes.HistoryCurrencyShadowsLastId | index.js:127-129 | `getPaymentHistory("a?paidOnly=0&lastId=x", false, "")` and `getPaymentHistory("a", false, "x?paidOnly=0")` are different calls that build the same path. |
| Routes.CreateWalletShadowsTransfer | index.js:91-93 | `createWallet("transfer_" + cur)` posts to the same route as a transfer of the lower-case currency `cur`, with a different body. |
| Routes.CreateWalletShadowsCharge | index.js:216-219 | `createWallet("charge_jpy")` posts to the same route as `chargeJpyViaCreditCard`, with a different body. |
| Routes.GetInvoiceShadowsHistory | index.js:98-100 | `getInvoice` with an id of the form `history/<cur>?paidOnly=...` builds exactly the descriptor of `getPaymentHistory`. |
| Traces.RunHeld | index.js:47-76 | After any run of calls, the credentials are those of the last successful credential operation, or the starting ones if there was none. Failed calls and domain calls never change them. |
| Traces.NoGrantNoDomainTraffic | index.js:25-28 | A client that starts without an access token and never gets credentials sends only login, registration and refresh requests. |
| Traces.RenewSendsLatestRefresh | index.js:71-72 | `renewToken` after any run sends the refresh token of the last successful credential operation. |
| Traces.RepeatSendsSameRequest | index.js:25-39 | Repeating a domain call sends the identical request again. Nothing is cached, and neither call changes the credentials. |
| Scenarios.LogInFromFresh | index.js:47-52 | Logging in from a new client with reply `{jwt:"J1", refreshToken:"R1", payload:{id:"u1"}}` leaves tokens J1/R1 and returns `{id:"u1"}`. The request carries an empty `Authorization`. |
| Scenarios.GetInvoiceWhenLoggedIn | index.js:98-100 | With access token J1, `getInvoice("inv42")` sends `GET https://api.canpayment.work/api/payments/inv42` with `Authorization: J1` and returns the data unchanged. |
| Scenarios.GetWalletWhenLoggedOut | index.js:83-85 | A new client's `getWallet("mona")` is refused with "Log in first." and builds no request. |
| Scenarios.GetWalletOmitted | index.js:84 | `getWallet()` with no currency asks `GET /wallets/`. |
| Scenarios.TransferLowerCasesRoute | index.js:175-179 | A transfer of `"XRP"` posts to `/wallets/transfer_xrp`. |

## Left out

- The HTTP transport (axios), its status handling and JSON serialisation: the transport is the `Outcome` input. Dropping `undefined` fields while serialising is not modelled; a body is the object as built.
- `getMonacoinDepositHistoryFromInsight` and `getBitZenyDepositHistoryFromInsight`, and the second origin `apiEndpoint` they use: they call a separate block-explorer service with form encoding and are marked unfinished.
- Asynchronous interleaving: each call is one atomic step, and concurrent token replacement is not modelled.
- Validation of credential replies: a reply is a record that already has `jwt`, `refreshToken` and `payload`, so storing `undefined` for a missing field is not modelled.
- Text.LowerCase: maps only the ASCII letters A-Z. `toLowerCase` also folds other Unicode letters, some into more than one character.
- Errors raised by JavaScript itself: a `TypeError` from destructuring a missing argument (`registerCreditCard` without `expiry`) or from lower-casing a non-string currency.
- Path arguments are strings. Stringifying other values inside a template literal is not modelled. `cur || ""` in `getWallet` treats only an omitted or empty currency as empty.
- The `paidOnly` argument is a boolean. `paidOnly|0` on other values is not modelled.
- `issueInvoice`'s currency is a string here; the source passes any value through to the body.
- Numbers are opaque integer labels (no floating point). Objects and arrays are never `===` to one another, since the model has no object identity.

=== FILE: api.dfy ===
/** The public operations of the `Canpay` client and the request
    descriptor each one hands to the base request method. */
module Api {
  import opened Values
  import opened Sessions
  import opened Text
  import opened Pipeline

  /** One call of a public operation, with its arguments. Arguments that end
      up in a path are strings; the others are passed into the body as given.
      The defaults of `getPaymentHistory` (`paidOnly = false`, `lastId = ""`)
      are ordinary arguments here. */
  datatype Call =
    | LogIn(email: Value, password: Value)
    | Register(email: Value, screenName: Value, password: Value)
    | RenewToken
    | GetWallet(wanted: Option<string>)
    | CreateWallet(cur: string)
    | GetInvoice(id: string)
    | PayInvoice(id: string)
    | IssueInvoice(currency: string, amount: Value)
    | GetPaymentHistory(cur: string, paidOnly: bool, lastId: string)
    | Transfer(currency: string, tag: Value, to: Value, amount: Value)
    | GetCreditCard
    | RegisterCreditCard(number: Value, month: Value, year: Value, cvc: Value)
    | ChargeJpyViaCreditCard(amount: Value, stripeCardToken: Value)
    | GetBankAccount
    | UpdateBankAccount(branchCode: Value, company: Value, companyCode: Value,
                        name: Value, number: Value, kind: Value)
  {
    /** The credential operations pass `ignoreCredential = true`. */
    predicate Anonymous() {
      LogIn? || Register? || RenewToken?
    }
  }

  /** The operations that need an access token. */
  type DomainCall = c: Call | !c.Anonymous() witness GetCreditCard

  const WalletsPrefix: string := "/wallets/"
  const TransferPrefix: string := "/wallets/transfer_"
  const ChargeJpyPath: string := "/wallets/charge_jpy"
  const PaymentsPath: string := "/payments"
  const PaymentsPrefix: string := "/payments/"
  const HistoryPrefix: string := "/payments/history/"
  const ExecuteSuffix: string := "/execute"
  const PaidOnlyParam: string := "?paidOnly="
  const LastIdParam: string := "&lastId="
  const CardTokensPath: string := "/card_tokens"
  const BankAccountsPath: string := "/bank_accounts"
  const LogInPath: string := "/users/login"
  const RegisterPath: string := "/users/register"
  const RefreshPath: string := "/refresh_token"

  const EmptyBody: Value := Obj([])

  /** `paidOnly|0` inside a template literal: "1" for true, "0" for false. */
  function PaidOnlyFlag(paidOnly: bool): (f: string)
    ensures |f| == 1 && (f[0] == '1' <==> paidOnly) && f[0] in "01"
  {
    if paidOnly then "1" else "0"
  }

  /** `cur || ""`: an omitted currency contributes nothing to the path. */
  function OrEmpty(wanted: Option<string>): string {
    match wanted
    case None => ""
    case Some(cur) => cur
  }

  /** The path of `getPaymentHistory`: the `lastId` parameter is appended
      only when `lastId` is truthy, that is non-empty. */
  function HistoryPath(cur: string, paidOnly: bool, lastId: string): string {
    HistoryPrefix + cur + PaidOnlyParam + PaidOnlyFlag(paidOnly)
      + (if lastId != "" then LastIdParam + lastId else "")
  }

  /** The history path ends right after the `paidOnly` flag exactly when the
      last id is empty; otherwise `&lastId=` and the last id follow. */
  lemma HistoryLastIdIff(cur: string, paidOnly: bool, lastId: string)
    ensures var head := HistoryPrefix + cur + PaidOnlyParam + PaidOnlyFlag(paidOnly);
            var p := HistoryPath(cur, paidOnly, lastId);
            && head <= p
            && (p == head <==> lastId == "")
            && (lastId != "" ==> p[|head|..] == LastIdParam + lastId)
  {
  }

  /** The descriptor each operation hands to the base request method. Only
      the credential operations may run without an access token, and every
      path is relative to the base URL. */
  function Describe(s: Session, c: Call): (d: Descriptor)
    ensures d.ignoreCredential <==> c.Anonymous()
    ensures |d.path| > 0 && d.path[0] == '/'
    ensures d.body.Obj?
  {
    match c
    case LogIn(email, password) =>
      Descriptor(Post, LogInPath, Obj([("email", email), ("password", password)]), true)
    case Register(email, screenName, password) =>
      Descriptor(Post, RegisterPath,
                 Obj([("email", email), ("password", password), ("screenName", screenName)]), true)
    case RenewToken =>
      Descriptor(Post, RefreshPath, Obj([("token", Str(s.refreshToken))]), true)
    case GetWallet(wanted) =>
      Descriptor(Get, WalletsPrefix + OrEmpty(wanted), EmptyBody, false)
    case CreateWallet(cur) =>
      Descriptor(Post, WalletsPrefix + cur, EmptyBody, false)
    case GetInvoice(id) =>
      Descriptor(Get, PaymentsPrefix + id, EmptyBody, false)
    case PayInvoice(id) =>
      Descriptor(Post, PaymentsPrefix + id + ExecuteSuffix, EmptyBody, false)
    case IssueInvoice(currency, amount) =>
      Descriptor(Post, PaymentsPath, Obj([("currency", Str(currency)), ("fee", amount)]), false)
    case GetPaymentHistory(cur, paidOnly, lastId) =>
      Descriptor(Get, HistoryPath(cur, paidOnly, lastId), EmptyBody, false)
    case Transfer(currency, tag, to, amount) =>
      Descriptor(Post, TransferPrefix + LowerCase(currency),
                 Obj([("amount", amount), ("to", to), ("tag", tag)]), false)
    case GetCreditCard =>
      Descriptor(Get, CardTokensPath, EmptyBody, false)
    case RegisterCreditCard(number, month, year, cvc) =>
      Descriptor(Post, CardTokensPath,
                 Obj([("number", number), ("exp_month", month), ("exp_year", year), ("cvc", cvc)]), false)
    case ChargeJpyViaCreditCard(amount, stripeCardToken) =>
      Descriptor(Post, ChargeJpyPath, Obj([("amount", amount), ("source", stripeCardToken)]), false)
    case GetBankAccount =>
      Descriptor(Get, BankAccountsPath, EmptyBody, false)
    case UpdateBankAccount(branchCode, company, companyCode, name, number, kind) =>
      Descriptor(Put, BankAccountsPath,
                 Obj([("branchCode", branchCode), ("company", company), ("companyCode", companyCode),
                      ("name", name), ("number", number), ("type", kind)]), false)
  }

  const TagRequired: string := "Tag is required when remitting XRP"

  /** The check `!currency==="xrp"` of `transfer`: `!` binds tighter than
      `===`, so a boolean is compared with a string. */
  predicate TagCheckFires(currency: string) {
    StrictEquals(Bool(!Truthy(Str(currency))), Str("xrp"))
  }

  /** No currency, however written, makes that check throw. */
  lemma TagCheckNeverFires(currency: string)
    ensures !TagCheckFires(currency)
  {
  }

  /** Only the credential operations depend on the session, and of it only
      on the refresh token. */
  lemma DescribeReadsOnlyRefreshToken(s: Session, t: Session, c: Call)
    requires !c.RenewToken? || s.refreshToken == t.refreshToken
    ensures Describe(s, c) == Describe(t, c)
  {
  }
}

=== FILE: client.dfy ===
/** The `Canpay` client's operations as functions from the credentials held
    before the call, the arguments and the transport's outcome to an
    `Exchange`: credentials afterwards, request built, value returned. */
module Client {
  import opened Values
  import opened Sessions
  import opened Text
  import opened Pipeline
  import Api

  /** The response data of a credential operation: the new access token,
      the new refresh token and the payload handed back to the caller. */
  datatype AuthReply = AuthReply(jwt: string, refreshToken: string, payload: Value)

  /** The credentials a successful credential operation installs. */
  function Granted(g: AuthReply): Session {
    Session(g.jwt, g.refreshToken)
  }

  /** The common tail of `logIn`, `register` and `renewToken`: the token
      assignments run only once the awaited request has returned. */
  function Adopt<T>(y: Exchange<AuthReply>, ret: AuthReply -> T): (x: Exchange<T>)
    ensures x.sent == y.sent
    ensures y.result.Ok? ==> x.session == Granted(y.result.value) && x.result == Ok(ret(y.result.value))
    ensures y.result.Err? ==> x.session == y.session && x.result == Err(y.result.error)
  {
    match y.result
    case Ok(g) => Exchange(Granted(g), y.sent, Ok(ret(g)))
    case Err(e) => Exchange(y.session, y.sent, Err(e))
  }

  /** `logIn`: never blocked by the guard; on success both tokens are
      replaced by the response's and its payload is returned; on failure the
      credentials stay as they were. */
  function LogIn(s: Session, email: Value, password: Value, outcome: Outcome<AuthReply>): (x: Exchange<Value>)
    ensures x.sent.Some?
    ensures x.sent.value.verb == Post && x.sent.value.url == "/users/login"
    ensures x.sent.value.data == Obj([("email", email), ("password", password)])
    ensures Carries(x.sent.value, s, Api.Describe(s, Api.LogIn(email, password)))
    ensures outcome.Success? ==>
              && x.session == Session(outcome.response.jwt, outcome.response.refreshToken)
              && x.result == Ok(outcome.response.payload)
    ensures outcome.Failure? ==> x.session == s && x.result == Err(TransportError(outcome.reason))
  {
    Adopt(Request(s, Api.Describe(s, Api.LogIn(email, password)), outcome), (g: AuthReply) => g.payload)
  }

  /** `register`: the same lifecycle as `logIn`, with the screen name added
      to the body. */
  function Register(s: Session, email: Value, screenName: Value, password: Value,
                    outcome: Outcome<AuthReply>): (x: Exchange<Value>)
    ensures x.sent.Some?
    ensures x.sent.value.verb == Post && x.sent.value.url == "/users/register"
    ensures x.sent.value.data == Obj([("email", email), ("password", password), ("screenName", screenName)])
    ensures Carries(x.sent.value, s, Api.Describe(s, Api.Register(email, screenName, password)))
    ensures outcome.Success? ==>
              && x.session == Session(outcome.response.jwt, outcome.response.refreshToken)
              && x.result == Ok(outcome.response.payload)
    ensures outcome.Failure? ==> x.session == s && x.result == Err(TransportError(outcome.reason))
  {
    Adopt(Request(s, Api.Describe(s, Api.Register(email, screenName, password)), outcome),
          (g: AuthReply) => g.payload)
  }

  /** `renewToken`: sends the refresh token held before the call, even when
      the access token is empty; on success both tokens are replaced and the
      call returns `true`. */
  function RenewToken(s: Session, outcome: Outcome<AuthReply>): (x: Exchange<bool>)
    ensures x.sent.Some?
    ensures x.sent.value.verb == Post && x.sent.value.url == "/refresh_token"
    ensures x.sent.value.data == Obj([("token", Str(s.refreshToken))])
    ensures Carries(x.sent.value, s, Api.Describe(s, Api.RenewToken))
    ensures outcome.Success? ==>
              && x.session == Session(outcome.response.jwt, outcome.response.refreshToken)
              && x.result == Ok(true)
    ensures outcome.Failure? ==> x.session == s && x.result == Err(TransportError(outcome.reason))
  {
    Adopt(Request(s, Api.Describe(s, Api.RenewToken), outcome), (g: AuthReply) => true)
  }

  /** A domain operation: it never changes the credentials, it is refused
      with "Log in first." exactly when the access token is empty, and
      otherwise sends its descriptor and returns the response data as is.
      (`transfer` first runs its currency check, which never throws.) */
  function Perform(s: Session, c: Api.DomainCall, outcome: Outcome<Value>): (x: Exchange<Value>)
    ensures x.session == s
    ensures x.sent.None? <==> s.accessToken == ""
    ensures x.sent.None? ==> x.result == Err(Thrown(LogInFirst))
    ensures x.sent.Some? ==> Carries(x.sent.value, s, Api.Describe(s, c))
    ensures x.sent.Some? ==> (x.result.Ok? <==> outcome.Success?)
    ensures x.sent.Some? && outcome.Success? ==> x.result.value == outcome.response
    ensures x.sent.Some? && outcome.Failure? ==> x.result == Err(TransportError(outcome.reason))
  {
    if c.Transfer? && Api.TagCheckFires(LowerCase(c.currency)) then
      Exchange(s, None, Err(Thrown(Api.TagRequired)))
    else
      Request(s, Api.Describe(s, c), outcome)
  }

  /** A newly constructed client holds no tokens, so every domain operation
      is refused with "Log in first." and builds no request. */
  lemma FreshClientBlocked(c: Api.DomainCall, outcome: Outcome<Value>)
    ensures Fresh.accessToken == "" && Fresh.refreshToken == ""
    ensures Perform(Fresh, c, outcome) == Exchange(Fresh, None, Err(Thrown(LogInFirst)))
  {
  }

  /** The credential operations pass the guard whatever the credentials,
      and they are the only operations that do so without an access token. */
  lemma GuardSparesExactlyCredentialCalls(s: Session, c: Api.Call)
    ensures !Blocked(s, Api.Describe(s, c).ignoreCredential) <==> c.Anonymous() || s.accessToken != ""
  {
  }
}

=== FILE: pipeline.dfy ===
/** The base request method of the client: the local credential guard, the
    HTTP request it hands to the transport, and how the transport's outcome
    reaches the caller. The transport itself is an input (`Outcome`). */
module Pipeline {
  import opened Values
  import opened Sessions

  /** Every request of the core goes to this origin. */
  const BaseUrl: string := "https://api.canpayment.work/api"
  const JsonContentType: string := "application/json"
  /** The message of the error thrown when a request needs credentials the client lacks. */
  const LogInFirst: string := "Log in first."

  datatype Method = Get | Post | Put

  /** What an operation asks the base request method for. */
  datatype Descriptor = Descriptor(verb: Method, path: string, body: Value, ignoreCredential: bool)

  /** The request handed to the transport. */
  datatype HttpRequest = HttpRequest(verb: Method, baseUrl: string, url: string,
                                     headers: seq<(string, string)>, data: Value)

  /** Errors a call can surface: one thrown locally, or the transport's failure verbatim. */
  datatype Error = Thrown(message: string) | TransportError(reason: Value)

  /** What the transport does with a request: it fails, or it succeeds with a response. */
  datatype Outcome<+R> = Failure(reason: Value) | Success(response: R)

  datatype Result<+T> = Ok(value: T) | Err(error: Error)

  /** One call as seen from outside: the client's credentials afterwards,
      the request handed to the transport (`None` if none was built) and
      what the call returns or throws. */
  datatype Exchange<+T> = Exchange(session: Session, sent: Option<HttpRequest>, result: Result<T>)

  /** The guard of the base request method: a call that does not ignore
      credentials is refused while the access token is empty (falsy). */
  predicate Blocked(s: Session, ignoreCredential: bool) {
    !ignoreCredential && s.accessToken == ""
  }

  /** The request the client builds for a descriptor in session `s`: the
      descriptor's verb, path and body, and exactly two headers, the current
      access token and the JSON content type. */
  predicate Carries(q: HttpRequest, s: Session, d: Descriptor) {
    && q.verb == d.verb
    && q.baseUrl == BaseUrl
    && q.url == d.path
    && q.data == d.body
    && |q.headers| == 2
    && (forall i :: 0 <= i < |q.headers| ==> q.headers[i].0 in {"Authorization", "Content-Type"})
    && Find(q.headers, "Authorization") == Some(s.accessToken)
    && Find(q.headers, "Content-Type") == Some(JsonContentType)
  }

  /** The base request method. The guard runs before anything is built;
      past it, exactly one request goes out, carrying the current access
      token even when that is empty, and the transport's outcome comes back
      unchanged. The request itself never touches the credentials. */
  function Request<R>(s: Session, d: Descriptor, outcome: Outcome<R>): (x: Exchange<R>)
    ensures x.session == s
    ensures x.sent.None? <==> Blocked(s, d.ignoreCredential)
    ensures x.sent.None? ==> x.result == Err(Thrown(LogInFirst))
    ensures x.sent.Some? ==> Carries(x.sent.value, s, d)
    ensures x.sent.Some? && outcome.Success? ==> x.result == Ok(outcome.response)
    ensures x.sent.Some? && outcome.Failure? ==> x.result == Err(TransportError(outcome.reason))
  {
    if Blocked(s, d.ignoreCredential) then
      Exchange(s, None, Err(Thrown(LogInFirst)))
    else
      var q := HttpRequest(d.verb, BaseUrl, d.path,
                           [("Authorization", s.accessToken), ("Content-Type", JsonContentType)],
                           d.body);
      match outcome
      case Success(r) => Exchange(s, Some(q), Ok(r))
      case Failure(e) => Exchange(s, Some(q), Err(TransportError(e)))
  }
}

=== FILE: routes.dfy ===
/** Reading a call back from its descriptor. `Decode` recovers the
    operation and its arguments from the method, the path and the body
    alone; the round trip shows the builders lose nothing beyond the case
    of a transfer currency and the difference between an omitted and an
    empty wallet currency, and which arguments make two calls build the
    same descriptor. */
module Routes {
  import opened Values
  import opened Sessions
  import opened Text
  import opened Pipeline
  import opened Api

  /** The representative of the calls that build the same descriptor. */
  function Normalize(c: Call): Call {
    match c
    case GetWallet(wanted) => if OrEmpty(wanted) == "" then GetWallet(None) else c
    case Transfer(currency, tag, to, amount) => Transfer(LowerCase(currency), tag, to, amount)
    case _ => c
  }

  /** The query of a history path, after the first `?`. */
  function DecodeHistoryQuery(cur: string, query: string): Option<Call> {
    var name := PaidOnlyParam[1..];
    if |query| > |name| && query[..|name|] == name && query[|name|] in "01" then
      var paidOnly := query[|name|] == '1';
      var tail := query[|name| + 1..];
      if tail == "" then Some(GetPaymentHistory(cur, paidOnly, ""))
      else if |tail| > |LastIdParam| && LastIdParam <= tail then Some(GetPaymentHistory(cur, paidOnly, tail[|LastIdParam|..]))
      else None
    else None
  }

  /** The part of a history path after `/payments/history/`. */
  function DecodeHistory(rest: string): Option<Call> {
    match IndexOf(rest, '?')
    case None => None
    case Some(q) => DecodeHistoryQuery(rest[..q], rest[q + 1..])
  }

  /** A path the history decoder reads as a payment history. */
  predicate ReadsAsHistory(p: string) {
    HistoryPrefix <= p && DecodeHistory(p[|HistoryPrefix|..]).Some?
  }

  /** A GET: a path the history decoder reads is a payment history, and any
      other path below `/payments/` names an invoice. */
  function DecodeGet(p: string): Option<Call> {
    if p == CardTokensPath then Some(GetCreditCard)
    else if p == BankAccountsPath then Some(GetBankAccount)
    else if WalletsPrefix <= p then
      var cur := p[|WalletsPrefix|..];
      Some(GetWallet(if cur == "" then None else Some(cur)))
    else if ReadsAsHistory(p) then DecodeHistory(p[|HistoryPrefix|..])
    else if PaymentsPrefix <= p then Some(GetInvoice(p[|PaymentsPrefix|..]))
    else None
  }

  /** An object with exactly these keys, in this order: the shape every
      builder gives its body. `Shaped(b, [])` is the empty object. */
  predicate Shaped(b: Value, keys: seq<string>) {
    b.Obj? && |b.fields| == |keys| && forall i :: 0 <= i < |keys| ==> b.fields[i].0 == keys[i]
  }

  /** The value of the `i`-th field of a body; once the body's keys are
      checked, this is the field of the route's `i`-th key. */
  function Arg(b: Value, i: nat): Value {
    if b.Obj? && i < |b.fields| then b.fields[i].1 else Undefined
  }

  /** The call `c`, provided the body has the route's shape. */
  function IfShaped(b: Value, keys: seq<string>, c: Call): Option<Call> {
    if Shaped(b, keys) then Some(c) else None
  }

  /** A POST below `/wallets/`, from what follows the prefix. An empty body
      creates the wallet the path names, whatever that is; the charge and
      transfer routes read their own bodies. */
  function DecodeWalletPost(rest: string, b: Value): Option<Call> {
    if Shaped(b, []) then Some(CreateWallet(rest))
    else if rest == ChargeJpyPath[|WalletsPrefix|..] then
      IfShaped(b, ["amount", "source"], ChargeJpyViaCreditCard(Arg(b, 0), Arg(b, 1)))
    else if TransferPrefix[|WalletsPrefix|..] <= rest then
      var cur := rest[|TransferPrefix| - |WalletsPrefix|..];
      if NoUpper(cur) then IfShaped(b, ["amount", "to", "tag"], Transfer(cur, Arg(b, 2), Arg(b, 1), Arg(b, 0)))
      else None
    else None
  }

  function DecodePost(p: string, b: Value): Option<Call> {
    if p == LogInPath then
      IfShaped(b, ["email", "password"], LogIn(Arg(b, 0), Arg(b, 1)))
    else if p == RegisterPath then
      IfShaped(b, ["email", "password", "screenName"],
               Register(Arg(b, 0), Arg(b, 2), Arg(b, 1)))
    else if p == RefreshPath then
      if Arg(b, 0).Str? then IfShaped(b, ["token"], RenewToken) else None
    else if WalletsPrefix <= p then DecodeWalletPost(p[|WalletsPrefix|..], b)
    else if p == PaymentsPath then
      match Arg(b, 0)
      case Str(currency) => IfShaped(b, ["currency", "fee"], IssueInvoice(currency, Arg(b, 1)))
      case _ => None
    else if |p| >= |PaymentsPrefix| + |ExecuteSuffix| && PaymentsPrefix <= p
            && p[|p| - |ExecuteSuffix|..] == ExecuteSuffix then
      IfShaped(b, [], PayInvoice(p[|PaymentsPrefix|..|p| - |ExecuteSuffix|]))
    else if p == CardTokensPath then
      IfShaped(b, ["number", "exp_month", "exp_year", "cvc"],
               RegisterCreditCard(Arg(b, 0), Arg(b, 1), Arg(b, 2), Arg(b, 3)))
    else None
  }

  function DecodePut(p: string, b: Value): Option<Call> {
    if p == BankAccountsPath then
      IfShaped(b, ["branchCode", "company", "companyCode", "name", "number", "type"],
               UpdateBankAccount(Arg(b, 0), Arg(b, 1), Arg(b, 2), Arg(b, 3), Arg(b, 4), Arg(b, 5)))
    else None
  }

  /** The call a descriptor stands for, read from its method, path and body.
      A body of any other shape than the route's own is refused. */
  function Decode(d: Descriptor): Option<Call> {
    match d.verb
    case Get => if Shaped(d.body, []) then DecodeGet(d.path) else None
    case Post => DecodePost(d.path, d.body)
    case Put => DecodePut(d.path, d.body)
  }

  /** The arguments under which a call's descriptor is its own: a
      `getInvoice` id must not make a path the history decoder reads, and a
      history currency must not contain the `?` that starts the query. */
  predicate Unambiguous(c: Call) {
    match c
    case GetInvoice(id) => !ReadsAsHistory(PaymentsPrefix + id)
    case GetPaymentHistory(cur, _, _) => '?' !in cur
    case _ => true
  }

  /** The query of a history path gives back the flag and the last id. */
  lemma DecodeQuery(cur: string, paidOnly: bool, lastId: string)
    ensures DecodeHistoryQuery(cur, PaidOnlyParam[1..] + PaidOnlyFlag(paidOnly)
                                    + (if lastId != "" then LastIdParam + lastId else ""))
            == Some(GetPaymentHistory(cur, paidOnly, lastId))
  {
    var name := PaidOnlyParam[1..];
    var f := PaidOnlyFlag(paidOnly);
    var tail := if lastId != "" then LastIdParam + lastId else "";
    var query := name + f + tail;
    assert query[..|name|] == name;
    assert query[|name|] == f[0];
    assert query[|name| + 1..] == tail;
    if lastId != "" {
      assert tail[|LastIdParam|..] == lastId;
    }
  }

  /** The history decoder splits at the first `?`. */
  lemma DecodeSplit(cur: string, query: string)
    requires '?' !in cur
    ensures DecodeHistory(cur + ['?'] + query) == DecodeHistoryQuery(cur, query)
  {
    var rest := cur + ['?'] + query;
    IndexOfJoin(cur, '?', query);
    assert rest[..|cur|] == cur;
    assert rest[|cur| + 1..] == query;
  }

  /** Reading back a history path yields the currency, the flag and the
      last id it was built from, provided the currency holds no `?`. */
  lemma DecodeHistoryPath(cur: string, paidOnly: bool, lastId: string)
    requires '?' !in cur
    ensures DecodeHistory(HistoryPath(cur, paidOnly, lastId)[|HistoryPrefix|..])
            == Some(GetPaymentHistory(cur, paidOnly, lastId))
  {
    var query := PaidOnlyParam[1..] + PaidOnlyFlag(paidOnly)
                 + (if lastId != "" then LastIdParam + lastId else "");
    assert HistoryPath(cur, paidOnly, lastId)[|HistoryPrefix|..] == cur + ['?'] + query;
    DecodeSplit(cur, query);
    DecodeQuery(cur, paidOnly, lastId);
  }

  /** A route of the form `prefix + x` does not start with a constant that
      differs from the prefix at some position inside the prefix. */
  lemma NotPrefixAt(prefix: string, x: string, other: string, k: nat)
    requires k < |prefix| && k < |other| && prefix[k] != other[k]
    ensures !(other <= prefix + x)
    ensures prefix + x != other
  {
    assert (prefix + x)[k] == prefix[k];
  }

  /** Past a common prefix, one route starts with another exactly when
      the rest does. */
  lemma ShiftedPrefix(prefix: string, x: string, other: string)
    requires prefix <= other
    ensures other <= prefix + x <==> other[|prefix|..] <= x
    ensures other == prefix + x <==> other[|prefix|..] == x
  {
    var p := prefix + x;
    var o := other[|prefix|..];
    if other <= p {
      forall k | 0 <= k < |o| ensures o[k] == x[k] {
        assert o[k] == other[|prefix| + k] == p[|prefix| + k];
      }
    }
    if o <= x {
      forall k | 0 <= k < |other| ensures other[k] == p[k] {
        if k >= |prefix| {
          assert other[k] == o[k - |prefix|];
        }
      }
    }
    if other == p {
      assert o == p[|prefix|..];
    }
    if o == x {
      assert other == other[..|prefix|] + o;
    }
  }

  /** Two constants that differ at some position are neither equal nor
      prefixes of each other. */
  lemma Distinct(a: string, b: string, k: nat)
    requires k < |a| && k < |b| && a[k] != b[k]
    ensures a != b && !(a <= b) && !(b <= a)
  {
  }

  lemma DecodeGetWallet(wanted: Option<string>)
    ensures DecodeGet(WalletsPrefix + OrEmpty(wanted)) == Some(Normalize(GetWallet(wanted)))
  {
    var p := WalletsPrefix + OrEmpty(wanted);
    NotPrefixAt(WalletsPrefix, OrEmpty(wanted), CardTokensPath, 1);
    NotPrefixAt(WalletsPrefix, OrEmpty(wanted), BankAccountsPath, 1);
    assert WalletsPrefix <= p;
    assert p[|WalletsPrefix|..] == OrEmpty(wanted);
  }

  lemma DecodeGetInvoice(id: string)
    requires !ReadsAsHistory(PaymentsPrefix + id)
    ensures DecodeGet(PaymentsPrefix + id) == Some(GetInvoice(id))
  {
    var p := PaymentsPrefix + id;
    NotPrefixAt(PaymentsPrefix, id, CardTokensPath, 1);
    NotPrefixAt(PaymentsPrefix, id, BankAccountsPath, 1);
    NotPrefixAt(PaymentsPrefix, id, WalletsPrefix, 1);
    assert PaymentsPrefix <= p;
    assert p[|PaymentsPrefix|..] == id;
  }

  /** A GET below `/payments/history/` is a history when the history
      decoder reads it, and an invoice otherwise. */
  lemma DecodeGetHistoryPrefix(rest: string)
    ensures DecodeGet(HistoryPrefix + rest)
            == if DecodeHistory(rest).Some? then DecodeHistory(rest)
               else Some(GetInvoice(HistoryPrefix[|PaymentsPrefix|..] + rest))
  {
    var p := HistoryPrefix + rest;
    NotPrefixAt(HistoryPrefix, rest, CardTokensPath, 1);
    NotPrefixAt(HistoryPrefix, rest, BankAccountsPath, 1);
    NotPrefixAt(HistoryPrefix, rest, WalletsPrefix, 1);
    assert HistoryPrefix <= p;
    assert p[|HistoryPrefix|..] == rest;
    assert PaymentsPrefix <= p;
    assert p[|PaymentsPrefix|..] == HistoryPrefix[|PaymentsPrefix|..] + rest;
  }

  lemma DecodeGetHistory(cur: string, paidOnly: bool, lastId: string)
    requires '?' !in cur
    ensures DecodeGet(HistoryPath(cur, paidOnly, lastId)) == Some(GetPaymentHistory(cur, paidOnly, lastId))
  {
    var p := HistoryPath(cur, paidOnly, lastId);
    var rest := p[|HistoryPrefix|..];
    assert p == HistoryPrefix + rest;
    DecodeGetHistoryPrefix(rest);
    DecodeHistoryPath(cur, paidOnly, lastId);
  }

  lemma DecodeGetFixed()
    ensures DecodeGet(CardTokensPath) == Some(GetCreditCard)
    ensures DecodeGet(BankAccountsPath) == Some(GetBankAccount)
  {
    Distinct(BankAccountsPath, CardTokensPath, 1);
  }

  /** What the decoder makes of the login route, whatever the body. */
  lemma LogInRoute(b: Value)
    ensures DecodePost(LogInPath, b) == IfShaped(b, ["email", "password"], LogIn(Arg(b, 0), Arg(b, 1)))
  {
  }

  lemma RegisterRoute(b: Value)
    ensures DecodePost(RegisterPath, b)
            == IfShaped(b, ["email", "password", "screenName"], Register(Arg(b, 0), Arg(b, 2), Arg(b, 1)))
  {
    Distinct(RegisterPath, LogInPath, 7);
  }

  lemma RenewRoute(b: Value)
    ensures DecodePost(RefreshPath, b) == if Arg(b, 0).Str? then IfShaped(b, ["token"], RenewToken) else None
  {
    Distinct(RefreshPath, LogInPath, 1);
    Distinct(RefreshPath, RegisterPath, 1);
  }

  /** A POST below `/wallets/` goes to the wallet decoder. */
  lemma WalletsRoute(rest: string, b: Value)
    ensures DecodePost(WalletsPrefix + rest, b) == DecodeWalletPost(rest, b)
  {
    var p := WalletsPrefix + rest;
    NotPrefixAt(WalletsPrefix, rest, LogInPath, 1);
    NotPrefixAt(WalletsPrefix, rest, RegisterPath, 1);
    NotPrefixAt(WalletsPrefix, rest, RefreshPath, 1);
    assert WalletsPrefix <= p;
    assert p[|WalletsPrefix|..] == rest;
  }

  lemma IssueInvoiceRoute(b: Value)
    ensures DecodePost(PaymentsPath, b)
            == if Arg(b, 0).Str? then IfShaped(b, ["currency", "fee"], IssueInvoice(Arg(b, 0).s, Arg(b, 1)))
               else None
  {
    Distinct(PaymentsPath, LogInPath, 1);
    Distinct(PaymentsPath, RegisterPath, 1);
    Distinct(PaymentsPath, RefreshPath, 1);
    Distinct(PaymentsPath, WalletsPrefix, 1);
  }

  lemma PayInvoiceRoute(id: string, b: Value)
    ensures DecodePost(PaymentsPrefix + id + ExecuteSuffix, b) == IfShaped(b, [], PayInvoice(id))
  {
    var p := PaymentsPrefix + id + ExecuteSuffix;
    var x := id + ExecuteSuffix;
    assert p == PaymentsPrefix + x;
    NotPrefixAt(PaymentsPrefix, x, LogInPath, 1);
    NotPrefixAt(PaymentsPrefix, x, RegisterPath, 1);
    NotPrefixAt(PaymentsPrefix, x, RefreshPath, 1);
    NotPrefixAt(PaymentsPrefix, x, WalletsPrefix, 1);
    assert p != PaymentsPath by { assert |p| > |PaymentsPath|; }
    assert PaymentsPrefix <= p;
    assert p[|p| - |ExecuteSuffix|..] == ExecuteSuffix;
    assert p[|PaymentsPrefix|..|p| - |ExecuteSuffix|] == id;
  }

  lemma CardTokensRoute(b: Value)
    ensures DecodePost(CardTokensPath, b)
            == IfShaped(b, ["number", "exp_month", "exp_year", "cvc"],
                        RegisterCreditCard(Arg(b, 0), Arg(b, 1), Arg(b, 2), Arg(b, 3)))
  {
    Distinct(CardTokensPath, LogInPath, 1);
    Distinct(CardTokensPath, RegisterPath, 1);
    Distinct(CardTokensPath, RefreshPath, 1);
    Distinct(CardTokensPath, WalletsPrefix, 1);
    Distinct(CardTokensPath, PaymentsPath, 1);
    Distinct(CardTokensPath, PaymentsPrefix, 1);
  }

  lemma DecodeLogIn(email: Value, password: Value)
    ensures DecodePost(LogInPath, Obj([("email", email), ("password", password)]))
            == Some(LogIn(email, password))
  {
  }

  lemma DecodeRegister(email: Value, screenName: Value, password: Value)
    ensures DecodePost(RegisterPath, Obj([("email", email), ("password", password), ("screenName", screenName)]))
            == Some(Register(email, screenName, password))
  {
    RegisterRoute(Obj([("email", email), ("password", password), ("screenName", screenName)]));
  }

  lemma DecodeRenew(token: string)
    ensures DecodePost(RefreshPath, Obj([("token", Str(token))])) == Some(RenewToken)
  {
    RenewRoute(Obj([("token", Str(token))]));
  }

  lemma DecodeCharge(amount: Value, token: Value)
    ensures DecodePost(ChargeJpyPath, Obj([("amount", amount), ("source", token)]))
            == Some(ChargeJpyViaCreditCard(amount, token))
  {
    var rest := ChargeJpyPath[|WalletsPrefix|..];
    assert ChargeJpyPath == WalletsPrefix + rest;
    WalletsRoute(rest, Obj([("amount", amount), ("source", token)]));
  }

  lemma DecodeCreateWallet(cur: string)
    ensures DecodePost(WalletsPrefix + cur, EmptyBody) == Some(CreateWallet(cur))
  {
    WalletsRoute(cur, EmptyBody);
  }

  lemma DecodeTransfer(cur: string, tag: Value, to: Value, amount: Value)
    requires NoUpper(cur)
    ensures DecodePost(TransferPrefix + cur, Obj([("amount", amount), ("to", to), ("tag", tag)]))
            == Some(Transfer(cur, tag, to, amount))
  {
    var name := TransferPrefix[|WalletsPrefix|..];
    var rest := name + cur;
    assert TransferPrefix + cur == WalletsPrefix + rest;
    Distinct(rest, ChargeJpyPath[|WalletsPrefix|..], 0);
    assert name <= rest;
    assert rest[|TransferPrefix| - |WalletsPrefix|..] == cur;
    WalletsRoute(rest, Obj([("amount", amount), ("to", to), ("tag", tag)]));
  }

  lemma DecodeIssueInvoice(currency: string, amount: Value)
    ensures DecodePost(PaymentsPath, Obj([("currency", Str(currency)), ("fee", amount)]))
            == Some(IssueInvoice(currency, amount))
  {
    IssueInvoiceRoute(Obj([("currency", Str(currency)), ("fee", amount)]));
  }

  lemma DecodePayInvoice(id: string)
    ensures DecodePost(PaymentsPrefix + id + ExecuteSuffix, EmptyBody) == Some(PayInvoice(id))
  {
    PayInvoiceRoute(id, EmptyBody);
  }

  lemma DecodeRegisterCreditCard(number: Value, month: Value, year: Value, cvc: Value)
    ensures DecodePost(CardTokensPath, Obj([("number", number), ("exp_month", month),
                                            ("exp_year", year), ("cvc", cvc)]))
            == Some(RegisterCreditCard(number, month, year, cvc))
  {
    CardTokensRoute(Obj([("number", number), ("exp_month", month), ("exp_year", year), ("cvc", cvc)]));
  }

  lemma DecodeUpdateBankAccount(branchCode: Value, company: Value, companyCode: Value,
                                name: Value, number: Value, kind: Value)
    ensures DecodePut(BankAccountsPath,
                      Obj([("branchCode", branchCode), ("company", company), ("companyCode", companyCode),
                           ("name", name), ("number", number), ("type", kind)]))
            == Some(UpdateBankAccount(branchCode, company, companyCode, name, number, kind))
  {
  }

  /** Every call is read back from its descriptor as its representative,
      unless it is a `getInvoice` whose path reads as a history or a
      history with `?` in its currency. */
  lemma DecodeDescribe(s: Session, c: Call)
    requires Unambiguous(c)
    ensures Decode(Describe(s, c)) == Some(Normalize(c))
  {
    match c
    case LogIn(email, password) => DecodeLogIn(email, password);
    case Register(email, screenName, password) => DecodeRegister(email, screenName, password);
    case RenewToken => DecodeRenew(s.refreshToken);
    case GetWallet(wanted) => DecodeGetWallet(wanted);
    case CreateWallet(cur) => DecodeCreateWallet(cur);
    case GetInvoice(id) => DecodeGetInvoice(id);
    case PayInvoice(id) => DecodePayInvoice(id);
    case IssueInvoice(currency, amount) => DecodeIssueInvoice(currency, amount);
    case GetPaymentHistory(cur, paidOnly, lastId) => DecodeGetHistory(cur, paidOnly, lastId);
    case Transfer(currency, tag, to, amount) => DecodeTransfer(LowerCase(currency), tag, to, amount);
    case GetCreditCard => DecodeGetFixed();
    case RegisterCreditCard(number, month, year, cvc) => DecodeRegisterCreditCard(number, month, year, cvc);
    case ChargeJpyViaCreditCard(amount, token) => DecodeCharge(amount, token);
    case GetBankAccount => DecodeGetFixed();
    case UpdateBankAccount(branchCode, company, companyCode, name, number, kind) =>
      DecodeUpdateBankAccount(branchCode, company, companyCode, name, number, kind);
  }

  /** The parts of a descriptor that reach the wire. */
  predicate SameRequest(e: Descriptor, d: Descriptor) {
    e.verb == d.verb && e.path == d.path && e.body == d.body
  }

  /** The descriptor a call read back from `d` builds, in a session holding
      the refresh token that `d`'s first field carries (only `renewToken`
      reads the session). */
  function Rebuild(d: Descriptor, c: Call): Descriptor {
    var token := if Arg(d.body, 0).Str? then Arg(d.body, 0).s else "";
    Describe(Session("", token), c)
  }

  /** A query the history decoder reads is the one its flag and last id
      produce. */
  lemma QueryOnlyBuilt(cur: string, query: string)
    ensures DecodeHistoryQuery(cur, query).Some? ==>
              var c := DecodeHistoryQuery(cur, query).value;
              && c.GetPaymentHistory? && c.cur == cur
              && PaidOnlyParam + PaidOnlyFlag(c.paidOnly)
                 + (if c.lastId != "" then LastIdParam + c.lastId else "") == ['?'] + query
  {
    var name := PaidOnlyParam[1..];
    if DecodeHistoryQuery(cur, query).Some? {
      var c := DecodeHistoryQuery(cur, query).value;
      var tail := query[|name| + 1..];
      assert PaidOnlyFlag(c.paidOnly) == [query[|name|]];
      assert query == name + [query[|name|]] + tail;
      if tail != "" {
        assert tail == LastIdParam + c.lastId;
      }
      assert PaidOnlyParam == ['?'] + name;
    }
  }

  /** A history path is the prefix, the currency, `?` and the query. */
  lemma HistoryJoin(cur: string, paidOnly: bool, lastId: string, query: string)
    requires PaidOnlyParam + PaidOnlyFlag(paidOnly)
             + (if lastId != "" then LastIdParam + lastId else "") == ['?'] + query
    ensures HistoryPath(cur, paidOnly, lastId) == HistoryPrefix + (cur + ['?'] + query)
  {
    var flag := PaidOnlyFlag(paidOnly);
    var tail := if lastId != "" then LastIdParam + lastId else "";
    calc {
      HistoryPath(cur, paidOnly, lastId);
      HistoryPrefix + cur + PaidOnlyParam + flag + tail;
      HistoryPrefix + (cur + (PaidOnlyParam + flag + tail));
      HistoryPrefix + (cur + (['?'] + query));
    }
  }

  /** A history route the decoder reads is the path its call builds. */
  lemma HistoryOnlyBuilt(rest: string)
    ensures DecodeHistory(rest).Some? ==>
              var c := DecodeHistory(rest).value;
              c.GetPaymentHistory? && HistoryPath(c.cur, c.paidOnly, c.lastId) == HistoryPrefix + rest
  {
    match IndexOf(rest, '?')
    case None =>
    case Some(q) =>
      var cur := rest[..q];
      var query := rest[q + 1..];
      assert rest == cur + ['?'] + query;
      assert DecodeHistory(rest) == DecodeHistoryQuery(cur, query);
      QueryOnlyBuilt(cur, query);
      if DecodeHistoryQuery(cur, query).Some? {
        var c := DecodeHistoryQuery(cur, query).value;
        HistoryJoin(c.cur, c.paidOnly, c.lastId, query);
      }
  }

  /** A descriptor the decoder reads as a call has exactly the method,
      path and body that call builds. */
  predicate OnlyBuilt(verb: Method, p: string, b: Value) {
    var d := Descriptor(verb, p, b, false);
    Decode(d).Some? ==> SameRequest(Rebuild(d, Decode(d).value), d)
  }

  /** A body of the route's shape is the object of its fields, in order. */
  lemma ShapedFields(b: Value, keys: seq<string>)
    requires Shaped(b, keys)
    ensures forall i :: 0 <= i < |keys| ==> b.fields[i] == (keys[i], Arg(b, i))
  {
  }

  lemma GetWalletOnlyBuilt(cur: string)
    ensures OnlyBuilt(Get, WalletsPrefix + cur, EmptyBody)
  {
    var wanted := if cur == "" then None else Some(cur);
    assert OrEmpty(wanted) == cur;
    DecodeGetWallet(wanted);
  }

  lemma RebuildHistory(d: Descriptor, cur: string, paidOnly: bool, lastId: string)
    ensures SameRequest(Rebuild(d, GetPaymentHistory(cur, paidOnly, lastId)),
                        Descriptor(Get, HistoryPath(cur, paidOnly, lastId), EmptyBody, false))
  {
  }

  lemma GetHistoryOnlyBuilt(rest: string)
    ensures OnlyBuilt(Get, HistoryPrefix + rest, EmptyBody)
  {
    var d := Descriptor(Get, HistoryPrefix + rest, EmptyBody, false);
    DecodeGetHistoryPrefix(rest);
    assert Decode(d) == DecodeGet(HistoryPrefix + rest);
    if DecodeHistory(rest).Some? {
      HistoryOnlyBuilt(rest);
      var c := DecodeHistory(rest).value;
      RebuildHistory(d, c.cur, c.paidOnly, c.lastId);
    } else {
      assert PaymentsPrefix + (HistoryPrefix[|PaymentsPrefix|..] + rest) == HistoryPrefix + rest;
    }
  }

  lemma GetInvoiceOnlyBuilt(id: string)
    requires !ReadsAsHistory(PaymentsPrefix + id)
    ensures OnlyBuilt(Get, PaymentsPrefix + id, EmptyBody)
  {
    DecodeGetInvoice(id);
  }

  /** A GET the decoder reads is the one its call builds. */
  lemma GetOnlyBuilt(p: string)
    ensures OnlyBuilt(Get, p, EmptyBody)
  {
    if p == CardTokensPath || p == BankAccountsPath {
      DecodeGetFixed();
    } else if WalletsPrefix <= p {
      var cur := p[|WalletsPrefix|..];
      assert p == WalletsPrefix + cur;
      GetWalletOnlyBuilt(cur);
    } else if HistoryPrefix <= p {
      var rest := p[|HistoryPrefix|..];
      assert p == HistoryPrefix + rest;
      GetHistoryOnlyBuilt(rest);
    } else if PaymentsPrefix <= p {
      var id := p[|PaymentsPrefix|..];
      assert p == PaymentsPrefix + id;
      GetInvoiceOnlyBuilt(id);
    }
  }

  lemma LogInOnlyBuilt(b: Value)
    ensures OnlyBuilt(Post, LogInPath, b)
  {
    LogInRoute(b);
    if Shaped(b, ["email", "password"]) {
      ShapedFields(b, ["email", "password"]);
      assert b.fields == [("email", Arg(b, 0)), ("password", Arg(b, 1))];
    }
  }

  lemma RegisterOnlyBuilt(b: Value)
    ensures OnlyBuilt(Post, RegisterPath, b)
  {
    RegisterRoute(b);
    if Shaped(b, ["email", "password", "screenName"]) {
      ShapedFields(b, ["email", "password", "screenName"]);
      assert b.fields == [("email", Arg(b, 0)), ("password", Arg(b, 1)), ("screenName", Arg(b, 2))];
    }
  }

  lemma RenewOnlyBuilt(b: Value)
    ensures OnlyBuilt(Post, RefreshPath, b)
  {
    RenewRoute(b);
    if Arg(b, 0).Str? && Shaped(b, ["token"]) {
      ShapedFields(b, ["token"]);
      assert b.fields == [("token", Str(Arg(b, 0).s))];
    }
  }

  lemma CreateWalletOnlyBuilt(rest: string)
    ensures OnlyBuilt(Post, WalletsPrefix + rest, EmptyBody)
  {
    WalletsRoute(rest, EmptyBody);
  }

  lemma ChargeOnlyBuilt(b: Value)
    requires !Shaped(b, [])
    ensures OnlyBuilt(Post, ChargeJpyPath, b)
  {
    var rest := ChargeJpyPath[|WalletsPrefix|..];
    assert ChargeJpyPath == WalletsPrefix + rest;
    WalletsRoute(rest, b);
    if Shaped(b, ["amount", "source"]) {
      ShapedFields(b, ["amount", "source"]);
      assert b.fields == [("amount", Arg(b, 0)), ("source", Arg(b, 1))];
    }
  }

  lemma TransferOnlyBuilt(cur: string, b: Value)
    requires !Shaped(b, [])
    ensures OnlyBuilt(Post, TransferPrefix + cur, b)
  {
    var name := TransferPrefix[|WalletsPrefix|..];
    var rest := name + cur;
    assert TransferPrefix + cur == WalletsPrefix + rest;
    Distinct(rest, ChargeJpyPath[|WalletsPrefix|..], 0);
    assert name <= rest;
    assert rest[|TransferPrefix| - |WalletsPrefix|..] == cur;
    WalletsRoute(rest, b);
    if NoUpper(cur) && Shaped(b, ["amount", "to", "tag"]) {
      LowerCaseFixesLower(cur);
      ShapedFields(b, ["amount", "to", "tag"]);
      assert b.fields == [("amount", Arg(b, 0)), ("to", Arg(b, 1)), ("tag", Arg(b, 2))];
    }
  }

  /** A POST below `/wallets/` the decoder reads: a wallet creation, a
      yen deposit or a transfer. */
  lemma WalletsOnlyBuilt(rest: string, b: Value)
    ensures OnlyBuilt(Post, WalletsPrefix + rest, b)
  {
    var name := TransferPrefix[|WalletsPrefix|..];
    if Shaped(b, []) {
      assert b == EmptyBody;
      CreateWalletOnlyBuilt(rest);
    } else if rest == ChargeJpyPath[|WalletsPrefix|..] {
      assert WalletsPrefix + rest == ChargeJpyPath;
      ChargeOnlyBuilt(b);
    } else if name <= rest {
      var cur := rest[|TransferPrefix| - |WalletsPrefix|..];
      assert rest == name + cur;
      assert WalletsPrefix + rest == TransferPrefix + cur;
      TransferOnlyBuilt(cur, b);
    } else {
      WalletsRoute(rest, b);
    }
  }

  lemma IssueInvoiceOnlyBuilt(b: Value)
    ensures OnlyBuilt(Post, PaymentsPath, b)
  {
    IssueInvoiceRoute(b);
    if Arg(b, 0).Str? && Shaped(b, ["currency", "fee"]) {
      ShapedFields(b, ["currency", "fee"]);
      assert b.fields == [("currency", Str(Arg(b, 0).s)), ("fee", Arg(b, 1))];
    }
  }

  lemma PayInvoiceOnlyBuilt(id: string, b: Value)
    ensures OnlyBuilt(Post, PaymentsPrefix + id + ExecuteSuffix, b)
  {
    PayInvoiceRoute(id, b);
  }

  lemma RegisterCreditCardOnlyBuilt(b: Value)
    ensures OnlyBuilt(Post, CardTokensPath, b)
  {
    CardTokensRoute(b);
    if Shaped(b, ["number", "exp_month", "exp_year", "cvc"]) {
      ShapedFields(b, ["number", "exp_month", "exp_year", "cvc"]);
      assert b.fields == [("number", Arg(b, 0)), ("exp_month", Arg(b, 1)),
                          ("exp_year", Arg(b, 2)), ("cvc", Arg(b, 3))];
    }
  }

  /** The POST routes the decoder reads, in its order; any other path is
      refused. */
  lemma PostOnlyBuilt(p: string, b: Value)
    ensures OnlyBuilt(Post, p, b)
  {
    if p == LogInPath {
      LogInOnlyBuilt(b);
    } else if p == RegisterPath {
      RegisterOnlyBuilt(b);
    } else if p == RefreshPath {
      RenewOnlyBuilt(b);
    } else if WalletsPrefix <= p {
      var rest := p[|WalletsPrefix|..];
      assert p == WalletsPrefix + rest;
      WalletsOnlyBuilt(rest, b);
    } else if p == PaymentsPath {
      IssueInvoiceOnlyBuilt(b);
    } else if |p| >= |PaymentsPrefix| + |ExecuteSuffix| && PaymentsPrefix <= p
              && p[|p| - |ExecuteSuffix|..] == ExecuteSuffix {
      var id := p[|PaymentsPrefix|..|p| - |ExecuteSuffix|];
      assert p == PaymentsPrefix + id + ExecuteSuffix;
      PayInvoiceOnlyBuilt(id, b);
    } else if p == CardTokensPath {
      RegisterCreditCardOnlyBuilt(b);
    }
  }

  lemma PutOnlyBuilt(p: string, b: Value)
    ensures OnlyBuilt(Put, p, b)
  {
    var keys := ["branchCode", "company", "companyCode", "name", "number", "type"];
    if p == BankAccountsPath && Shaped(b, keys) {
      ShapedFields(b, keys);
      assert b.fields == [("branchCode", Arg(b, 0)), ("company", Arg(b, 1)), ("companyCode", Arg(b, 2)),
                          ("name", Arg(b, 3)), ("number", Arg(b, 4)), ("type", Arg(b, 5))];
    }
  }

  /** The decoder accepts only what the builders write: a descriptor it
      reads as a call has exactly the method, path and body that call
      builds. With `DecodeDescribe`, decoding is the inverse of building. */
  lemma DecodeOnlyBuilt(d: Descriptor)
    ensures Decode(d).Some? ==> SameRequest(Rebuild(d, Decode(d).value), d)
  {
    assert Decode(d) == Decode(Descriptor(d.verb, d.path, d.body, false));
    match d.verb
    case Get =>
      if Shaped(d.body, []) {
        assert d.body == EmptyBody;
        GetOnlyBuilt(d.path);
      }
    case Post => PostOnlyBuilt(d.path, d.body);
    case Put => PutOnlyBuilt(d.path, d.body);
  }

  /** A `getInvoice` whose path the history decoder reads comes back as a
      payment history. */
  lemma AmbiguousInvoice(id: string)
    requires ReadsAsHistory(PaymentsPrefix + id)
    ensures DecodeGet(PaymentsPrefix + id) != Some(GetInvoice(id))
  {
    var p := PaymentsPrefix + id;
    var rest := p[|HistoryPrefix|..];
    assert p == HistoryPrefix + rest;
    DecodeGetHistoryPrefix(rest);
    HistoryOnlyBuilt(rest);
  }

  /** A history currency holding `?` is cut short at its first `?`, so the
      call does not come back. */
  lemma AmbiguousHistory(cur: string, paidOnly: bool, lastId: string)
    requires '?' in cur
    ensures DecodeGet(HistoryPath(cur, paidOnly, lastId)) != Some(GetPaymentHistory(cur, paidOnly, lastId))
  {
    var p := HistoryPath(cur, paidOnly, lastId);
    var query := PaidOnlyParam + PaidOnlyFlag(paidOnly) + (if lastId != "" then LastIdParam + lastId else "");
    var rest := cur + query;
    assert p == HistoryPrefix + rest;
    assert rest[..|cur|] == cur;
    DecodeGetHistoryPrefix(rest);
    if DecodeHistory(rest).Some? {
      var q := IndexOf(rest, '?').value;
      var j :| 0 <= j < |cur| && cur[j] == '?';
      assert rest[j] == '?';
      QueryOnlyBuilt(rest[..q], rest[q + 1..]);
      assert |DecodeHistory(rest).value.cur| < |cur|;
    }
  }

  /** The round trip holds exactly for the unambiguous calls: every call
      `Unambiguous` excludes builds a descriptor the decoder reads as a
      different call. */
  lemma DecodeDescribeIff(s: Session, c: Call)
    ensures Unambiguous(c) <==> Decode(Describe(s, c)) == Some(Normalize(c))
  {
    if Unambiguous(c) {
      DecodeDescribe(s, c);
    } else if c.GetInvoice? {
      AmbiguousInvoice(c.id);
    } else {
      AmbiguousHistory(c.cur, c.paidOnly, c.lastId);
    }
  }

  /** Normalizing a call does not change what it sends. */
  lemma DescribeNormalize(s: Session, c: Call)
    ensures Describe(s, Normalize(c)) == Describe(s, c)
  {
    if c.Transfer? {
      LowerCaseIdempotent(c.currency);
    }
  }

  /** Two unambiguous calls build the same descriptor exactly when they
      have the same representative: the builders lose nothing else. */
  lemma SameDescriptorIff(s: Session, c1: Call, c2: Call)
    requires Unambiguous(c1) && Unambiguous(c2)
    ensures Describe(s, c1) == Describe(s, c2) <==> Normalize(c1) == Normalize(c2)
  {
    DecodeDescribe(s, c1);
    DecodeDescribe(s, c2);
    DescribeNormalize(s, c1);
    DescribeNormalize(s, c2);
  }

  /** `createWallet("transfer_" + cur)` posts to the route of a transfer
      of `cur`, once `cur` is in lower case; only its empty body tells the
      two apart. */
  lemma CreateWalletShadowsTransfer(s: Session, cur: string, tag: Value, to: Value, amount: Value)
    requires NoUpper(cur)
    ensures var d := Describe(s, CreateWallet(TransferPrefix[|WalletsPrefix|..] + cur));
            var e := Describe(s, Transfer(cur, tag, to, amount));
            d.verb == e.verb && d.path == e.path && d.body != e.body
  {
    LowerCaseFixesLower(cur);
  }

  /** `createWallet("charge_jpy")` posts to the route of a yen deposit;
      only its empty body tells the two apart. */
  lemma CreateWalletShadowsCharge(s: Session, amount: Value, token: Value)
    ensures var d := Describe(s, CreateWallet(ChargeJpyPath[|WalletsPrefix|..]));
            var e := Describe(s, ChargeJpyViaCreditCard(amount, token));
            d.verb == e.verb && d.path == e.path && d.body != e.body
  {
  }

  /** `getInvoice` with an id of the right shape builds exactly the
      `getPaymentHistory` descriptor. */
  lemma GetInvoiceShadowsHistory(s: Session, cur: string, paidOnly: bool, lastId: string)
    ensures var id := HistoryPath(cur, paidOnly, lastId)[|PaymentsPrefix|..];
            Describe(s, GetInvoice(id)) == Describe(s, GetPaymentHistory(cur, paidOnly, lastId))
  {
    var p := HistoryPath(cur, paidOnly, lastId);
    assert p == PaymentsPrefix + p[|PaymentsPrefix|..];
  }

  /** A history currency holding `?` takes over the last id: two different
      calls build the same path. */
  lemma HistoryCurrencyShadowsLastId()
    ensures HistoryPath("a?paidOnly=0&lastId=x", false, "") == HistoryPath("a", false, "x?paidOnly=0")
    ensures GetPaymentHistory("a?paidOnly=0&lastId=x", false, "") != GetPaymentHistory("a", false, "x?paidOnly=0")
  {
  }
}

=== FILE: scenarios.dfy ===
/** Concrete calls of the client, each against a fixed transport outcome. */
module Scenarios {
  import opened Values
  import opened Sessions
  import opened Pipeline
  import opened Client
  import Api

  /** Logging in from a fresh client installs the returned tokens and hands
      back the payload. */
  lemma LogInFromFresh()
    ensures var payload := Obj([("id", Str("u1"))]);
            var x := LogIn(Fresh, Str("a@b.com"), Str("pw"), Success(AuthReply("J1", "R1", payload)));
            && x.session == Session("J1", "R1")
            && x.result == Ok(payload)
            && x.sent.Some? && Find(x.sent.value.headers, "Authorization") == Some("")
  {
  }

  /** The request a client with access token J1 sends for `getInvoice("inv42")`. */
  function InvoiceRequest(): HttpRequest {
    HttpRequest(Get, BaseUrl, "/payments/inv42",
                [("Authorization", "J1"), ("Content-Type", JsonContentType)], Api.EmptyBody)
  }

  lemma GetInvoiceExchange(refresh: string, data: Value)
    ensures Perform(Session("J1", refresh), Api.GetInvoice("inv42"), Success(data))
            == Exchange(Session("J1", refresh), Some(InvoiceRequest()), Ok(data))
  {
    var s := Session("J1", refresh);
    assert Api.Describe(s, Api.GetInvoice("inv42")) == Descriptor(Get, "/payments/inv42", Api.EmptyBody, false);
  }

  /** A logged-in client fetching an invoice sends `GET /payments/inv42`
      with its access token and returns the response data unchanged. */
  lemma GetInvoiceWhenLoggedIn(refresh: string)
    ensures var s := Session("J1", refresh);
            var data := Obj([("status", Str("pending"))]);
            var x := Perform(s, Api.GetInvoice("inv42"), Success(data));
            && x.sent.Some?
            && x.sent.value.verb == Get
            && x.sent.value.baseUrl + x.sent.value.url == "https://api.canpayment.work/api/payments/inv42"
            && Find(x.sent.value.headers, "Authorization") == Some("J1")
            && x.result == Ok(data)
            && x.session == s
  {
    GetInvoiceExchange(refresh, Obj([("status", Str("pending"))]));
    var q := InvoiceRequest();
    assert q.baseUrl + q.url == "https://api.canpayment.work/api/payments/inv42";
    assert Find(q.headers, "Authorization") == Some("J1");
  }

  /** A fresh client asking for its MONA wallet is refused before any request. */
  lemma GetWalletWhenLoggedOut(o: Outcome<Value>)
    ensures Perform(Fresh, Api.GetWallet(Some("mona")), o) == Exchange(Fresh, None, Err(Thrown("Log in first.")))
  {
  }

  /** `getWallet()` with no currency asks for `/wallets/`. */
  lemma GetWalletOmitted(s: Session)
    ensures Api.Describe(s, Api.GetWallet(None)).path == "/wallets/"
    ensures Api.Describe(s, Api.GetWallet(None)).verb == Get
  {
  }

  /** `transfer` lower-cases the currency in its route. */
  lemma TransferLowerCasesRoute(s: Session, tag: Value, to: Value, amount: Value)
    ensures Api.Describe(s, Api.Transfer("XRP", tag, to, amount)).path == "/wallets/transfer_xrp"
  {
  }
}

=== FILE: sessions.dfy ===
/** The credentials a `Canpay` client instance holds in memory. */
module Sessions {

  /** The access token (a JWT sent as `Authorization`) and the refresh token
      (sent only to renew the access token). An empty string means "none". */
  datatype Session = Session(accessToken: string, refreshToken: string)

  /** A newly constructed client holds no credentials. */
  const Fresh: Session := Session("", "")
}

=== FILE: text.dfy ===
/** The string work the request builders do: lower-casing and searching. */
module Text {
  import opened Values

  predicate IsUpper(c: char) {
    'A' <= c <= 'Z'
  }

  /** A string without upper-case letters, as `toLowerCase` leaves it. */
  predicate NoUpper(s: string) {
    forall i :: 0 <= i < |s| ==> !IsUpper(s[i])
  }

  /** `String.prototype.toLowerCase` on one character, restricted to ASCII. */
  function LowerChar(c: char): (d: char)
    ensures !IsUpper(d)
    ensures IsUpper(c) ==> d != c && d as int - c as int == 'a' as int - 'A' as int
    ensures !IsUpper(c) ==> d == c
  {
    if IsUpper(c) then (c as int - 'A' as int + 'a' as int) as char else c
  }

  /** `String.prototype.toLowerCase`, character by character. */
  function LowerCase(s: string): (r: string)
    ensures |r| == |s|
    ensures forall i :: 0 <= i < |s| ==> r[i] == LowerChar(s[i])
    ensures NoUpper(r)
  {
    if s == [] then [] else [LowerChar(s[0])] + LowerCase(s[1..])
  }

  /** A string without upper-case letters is left as it is. */
  lemma LowerCaseFixesLower(s: string)
    requires NoUpper(s)
    ensures LowerCase(s) == s
  {
  }

  /** Lower-casing twice is lower-casing once. */
  lemma LowerCaseIdempotent(s: string)
    ensures LowerCase(LowerCase(s)) == LowerCase(s)
  {
    LowerCaseFixesLower(LowerCase(s));
  }

  /** The position of the first `c` in `s`, if any. */
  function IndexOf(s: string, c: char): (r: Option<nat>)
    ensures r.None? <==> c !in s
    ensures r.Some? ==> r.value < |s| && s[r.value] == c && c !in s[..r.value]
  {
    if s == [] then None
    else if s[0] == c then Some(0)
    else match IndexOf(s[1..], c)
      case None => None
      case Some(i) => assert s[1..][..i] == s[1..i + 1]; Some(i + 1)
  }

  /** Splitting at the first `c` recovers what came before and after it,
      provided the part before holds no `c`. */
  lemma IndexOfJoin(a: string, c: char, b: string)
    requires c !in a
    ensures IndexOf(a + [c] + b, c) == Some(|a|)
  {
    var s := a + [c] + b;
    assert s[|a|] == c;
  }
}

=== FILE: traces.dfy ===
/** A client's life as a sequence of calls, each with the transport's
    outcome. The credentials after any run are those of the last successful
    credential operation, or the starting ones when there was none. */
module Traces {
  import opened Values
  import opened Sessions
  import opened Pipeline
  import opened Client
  import Api

  /** One call of the client together with what the transport did with it. */
  datatype Event =
    | DomainEvent(call: Api.DomainCall, outcome: Outcome<Value>)
    | LogInEvent(email: Value, password: Value, grant: Outcome<AuthReply>)
    | RegisterEvent(email: Value, screenName: Value, password: Value, grant: Outcome<AuthReply>)
    | RenewEvent(grant: Outcome<AuthReply>)

  /** The `true` that `renewToken` returns, as a JavaScript value. */
  function AsValue(x: Exchange<bool>): Exchange<Value> {
    match x.result
    case Ok(b) => Exchange(x.session, x.sent, Ok(Bool(b)))
    case Err(e) => Exchange(x.session, x.sent, Err(e))
  }

  function Step(s: Session, e: Event): Exchange<Value> {
    match e
    case DomainEvent(c, o) => Perform(s, c, o)
    case LogInEvent(email, password, g) => LogIn(s, email, password, g)
    case RegisterEvent(email, screenName, password, g) => Register(s, email, screenName, password, g)
    case RenewEvent(g) => AsValue(RenewToken(s, g))
  }

  /** The credentials after the events, in order, starting from `s`. */
  function Run(s: Session, events: seq<Event>): Session {
    if events == [] then s
    else Step(Run(s, events[..|events| - 1]), events[|events| - 1]).session
  }

  /** The requests the events hand to the transport, in order. */
  function Sent(s: Session, events: seq<Event>): seq<HttpRequest> {
    if events == [] then []
    else
      var prefix := events[..|events| - 1];
      var x := Step(Run(s, prefix), events[|events| - 1]);
      Sent(s, prefix) + (if x.sent.Some? then [x.sent.value] else [])
  }

  /** The response of the last successful credential operation among the events. */
  function LastGrant(events: seq<Event>): Option<AuthReply> {
    if events == [] then None
    else
      var e := events[|events| - 1];
      if !e.DomainEvent? && e.grant.Success? then Some(e.grant.response)
      else LastGrant(events[..|events| - 1])
  }

  /** The credentials a run leaves behind. */
  function Held(s: Session, events: seq<Event>): Session {
    match LastGrant(events)
    case None => s
    case Some(g) => Granted(g)
  }

  /** One step installs the credentials of a successful credential
      operation and otherwise keeps them. */
  lemma StepSession(s: Session, e: Event)
    ensures Step(s, e).session == if !e.DomainEvent? && e.grant.Success? then Granted(e.grant.response) else s
  {
    match e
    case DomainEvent(c, o) =>
    case LogInEvent(email, password, g) =>
    case RegisterEvent(email, screenName, password, g) =>
    case RenewEvent(g) =>
  }

  /** Only successful credential operations change the credentials, and
      each replaces both tokens. */
  lemma {:induction false} RunHeld(s: Session, events: seq<Event>)
    ensures Run(s, events) == Held(s, events)
  {
    if events != [] {
      var prefix := events[..|events| - 1];
      RunHeld(s, prefix);
      StepSession(Run(s, prefix), events[|events| - 1]);
    }
  }

  /** Starting without an access token and never obtaining credentials, a
      client sends nothing but credential requests. */
  lemma {:induction false} NoGrantNoDomainTraffic(s: Session, events: seq<Event>)
    requires s.accessToken == ""
    requires LastGrant(events) == None
    ensures forall i :: 0 <= i < |Sent(s, events)| ==>
              Sent(s, events)[i].url in {Api.LogInPath, Api.RegisterPath, Api.RefreshPath}
  {
    if events != [] {
      var prefix := events[..|events| - 1];
      var e := events[|events| - 1];
      assert LastGrant(prefix) == None;
      NoGrantNoDomainTraffic(s, prefix);
      RunHeld(s, prefix);
      var x := Step(Run(s, prefix), e);
      if x.sent.Some? {
        assert !e.DomainEvent?;
      }
    }
  }

  /** `renewToken` sends the refresh token of the last successful credential
      operation, or the starting one when there was none. */
  lemma RenewSendsLatestRefresh(s: Session, events: seq<Event>, g: Outcome<AuthReply>)
    ensures var x := Step(Run(s, events), RenewEvent(g));
            x.sent.Some? && x.sent.value.data == Obj([("token", Str(Held(s, events).refreshToken))])
  {
    RunHeld(s, events);
  }

  /** Repeating a domain call sends the same request again: nothing is cached
      and the first call leaves the credentials as they were. */
  lemma RepeatSendsSameRequest(s: Session, c: Api.DomainCall, o1: Outcome<Value>, o2: Outcome<Value>)
    ensures var x := Step(s, DomainEvent(c, o1));
            var y := Step(x.session, DomainEvent(c, o2));
            x.session == s && y.session == s
            && x.sent == y.sent && (s.accessToken != "" ==> x.sent.Some?)
  {
  }
}

=== FILE: values.dfy ===
/** JavaScript values as the Canpay client handles them: call arguments,
    request bodies and response data. Apart from the credential replies,
    which have their own type, the client only tests them for truthiness
    and strict equality. */
module Values {

  datatype Option<+T> = None | Some(value: T)

  /** A JavaScript value. Numbers are opaque labels here: the client passes
      them through and never computes with them. */
  datatype Value =
    | Undefined
    | Null
    | Bool(b: bool)
    | Num(n: int)
    | Str(s: string)
    | Arr(items: seq<Value>)
    | Obj(fields: seq<(string, Value)>)

  /** JavaScript truthiness: `undefined`, `null`, `false`, `0` and `""` are falsy. */
  predicate Truthy(v: Value) {
    match v
    case Undefined => false
    case Null => false
    case Bool(b) => b
    case Num(n) => n != 0
    case Str(s) => s != ""
    case Arr(_) => true
    case Obj(_) => true
  }

  /** JavaScript `===`. Values of different types are never strictly equal;
      arrays and objects compare by identity, and no two of the values built
      here share one. */
  predicate StrictEquals(a: Value, b: Value) {
    match (a, b)
    case (Undefined, Undefined) => true
    case (Null, Null) => true
    case (Bool(x), Bool(y)) => x == y
    case (Num(x), Num(y)) => x == y
    case (Str(x), Str(y)) => x == y
    case _ => false
  }

  /** The value of the first entry with that key, in an object's fields or a
      request's headers; `None` when no entry has it. */
  function Find<V>(entries: seq<(string, V)>, key: string): (r: Option<V>)
    ensures r.None? <==> forall i :: 0 <= i < |entries| ==> entries[i].0 != key
    ensures forall i :: (0 <= i < |entries| && entries[i].0 == key &&
                         (forall j :: 0 <= j < i ==> entries[j].0 != key)) ==> r == Some(entries[i].1)
  {
    if entries == [] then None
    else if entries[0].0 == key then Some(entries[0].1)
    else Find(entries[1..], key)
  }
}
